=== FILE: README.md ===
# omok — a Dafny model of the Gomoku core

This project models the rules and the computer opponent of a small pygame
Gomoku game (omok) and proves properties about them. Two players put stones
on a 15 x 15 board. The first player to get five or more of their own stones
in a row wins. If the board fills first, the game is a draw.

The model follows the program's three core files:

- `board.dfy` (module `Board`) is `board.py`. It covers the grid of 0/1/2 cells,
  `place_stone`, the point-local `check_winner` with its four-axis
  bidirectional walks, `is_full` and `reset`.
- `runs.dfy` (module `Runs`) says what those walks compute. `RunLen` is the
  length of the maximal run. `check_winner` through the stone just placed is
  true exactly when that stone lies in five consecutive stones of its player.
  When the player had no five before the move, that is the same as the player
  having five anywhere on the board.
- `ai.dfy` (module `Ai`) is `ai.py`. It covers the cell scoring
  `evaluate_position` in two forms: a side-effect-free function, and the
  mutate-score-restore method proved to match it and to hand the grid back
  unchanged. It also covers the candidate filter `get_available_moves`,
  `make_move` (argmax with ties) and the three difficulty tiers.
- `game.dfy` (module `Game`) is `game.py` without rendering. It covers the
  turn/outcome state machine, the menu, start and reset, the computer's move,
  and the dispatch of the run loop. An invariant holds in every reachable
  state. It implies that a recorded winner really has five in a row and a
  recorded draw really has a full board with no five.

Random choices are parameters:

- `pick` is the index `random.choice` draws, reduced modulo the list length.
- `roll` is the value of `random.random()`.

Lemmas show that every best move, and every candidate for the random tiers,
is reachable for some value of these parameters.

## Model

| member | source | states |
|---|---|---|
| Board.New | board.py:6-8 | a fresh board is size x size and every cell is empty |
| Board.PlaceStone | board.py:43-48 | succeeds iff the cell is on the board and empty; on success exactly that cell becomes the player's, on failure the board is untouched |
| Board.Walk | board.py:62-74 | each while loop counts exactly the maximal run next to the cell and stops on the first cell past it, which is off the board or not the player's |
| Board.IsFull | board.py:81-83 | true iff no cell of the board is empty |
| Board.Reset | board.py:165-167 | the size is kept, every cell is empty again, and a non-empty board is then not full |
| Runs.RunLenIs | board.py:62-74 | RunLen, the stones one while loop counts, is the unique k with the player's stones at offsets 1..k and none at offset k+1 |
| Runs.AxisCountIsRunLength | board.py:59-74 | the count of an axis is the length of the maximal run of the player's stones through the cell |
| Runs.RunBounds | board.py:62-74 | for a maximal run at offsets lo..hi, the forward walk counts hi stones and the backward walk counts -lo |
| Runs.WinsFromAnyAxis | board.py:59-79 | WinsFrom, the loop over the four axes with its early return, is true iff some remaining axis has a count of five or more |
| Runs.CheckWinnerMeansFive | board.py:50-79 | CheckWinner (check_winner) through a stone of the player is true iff that stone lies in five consecutive stones of the player along one of the four axes |
| Runs.OverlineWins | board.py:76-77 | six in a row through the stone also wins, because the test is count >= 5 |
| Runs.ExactFourFallsShort | board.py:60-77 | a maximal run of exactly four gives an axis count of four, which is not a win |
| Runs.FiveAvoidsOtherCell | board.py:45-47 | changing one cell to something other than q cannot create a five of q |
| Runs.PlacedFiveIsLocal | board.py:50-79 | if the player had no five before placing, then afterwards they have five somewhere on the board iff check_winner through the new stone says so |
| Ai.NewAi | ai.py:6-8 | the AI's opponent is 2 for player 1 and 1 for player 2 |
| Ai.SumAxes | ai.py:21-51 | the score the four axes add up through the LineScore table lies between 0 and four times 10000 |
| Ai.EvaluatePosition | ai.py:10-56 | an occupied cell scores -1000; an empty cell scores between 0 and four times 10000 |
| Ai.WalkToEnd | ai.py:26-32 | one while loop counts the maximal run, and blocked is 1 iff the cell past the run is off the board or not empty |
| Ai.ScanAxis | ai.py:21-41 | count is one plus both runs, and blocked counts the blocked ends of the two runs |
| Ai.WalkIgnoresOrigin | ai.py:16-41 | the temporarily written cell is never read by the walks, so its content does not change any run |
| Ai.EvaluateInPlace | ai.py:10-56 | writing the stone, scoring the four axes and writing 0 back returns the grid it was given and the side-effect-free score |
| Ai.BlockedMeansOffGridOrForeign | ai.py:31-32 | a run end counts as blocked iff the cell past it is off the board or holds the other player's stone |
| Ai.SumAxesThreshold | ai.py:43-51 | the four-axis sum reaches 10000 iff some axis has a count of five; otherwise it is at most 4000 |
| Ai.EvaluateDetectsWin | ai.py:44-45 | an empty cell scores at least 10000 for a player iff placing that player there wins by check_winner |
| Ai.OpenRunScore | ai.py:46-51 | a maximal run through the cell with an empty cell beyond each end scores 1000, 100 or 10 for length 4, 3 or 2 |
| Ai.NeighborFromFinds | ai.py:66-74 | the scan of the 3 x 3 offsets from a given one on finds a stone iff one of those offsets holds a stone on the board |
| Ai.HasNeighborIsNearStone | ai.py:65-74 | HasNeighbor, the 3 x 3 scan, finds a stone iff a stone lies within Chebyshev distance 1 |
| Ai.Scan | ai.py:61-77 | the double loop collects exactly the empty cells, from the given position on in row-major order, that have a neighbouring stone, or every empty cell when the board is small |
| Ai.GetAvailableMoves | ai.py:58-80 | every move offered is an empty cell on the board, and some move is offered iff some cell is empty |
| Ai.AvailableMovesAreCandidates | ai.py:58-80 | on a board of fewer than 50 cells every empty cell is offered; otherwise the empty cells next to a stone, or every empty cell when there are none such |
| Ai.EmptyBoardOffersEveryCell | ai.py:79-80 | on an empty board every cell is offered |
| Ai.KeyOrdersLikeBlend | ai.py:94-100 | the integer key 5*my + 4*opp orders and ties cells exactly as my + 0.8*opp does |
| Ai.Collect | ai.py:89-106 | the ties are non-empty iff there are candidates; they are exactly the candidates with the maximal key, and no candidate scores above it |
| Ai.Draw | ai.py:109 | the drawn index lies in the list, and every index can be drawn |
| Ai.MakeMove | ai.py:82-109 | returns (0, 0) without candidates, else a candidate whose key no other candidate exceeds |
| Ai.MakeMoveCanPickAnyBest | ai.py:102-109 | every candidate with the maximal key is the result for some random draw |
| Ai.RandomMove | ai.py:115-116 | returns (0, 0) without candidates, else one of the candidates |
| Ai.RandomMoveCanPickAny | ai.py:116 | every candidate is the result for some random draw |
| Ai.GetMoveWithDifficulty | ai.py:111-128 | with an empty cell left, the move is an offered empty cell; on a full board it is (0, 0); "hard", and "medium" below a roll of 0.7, play a best candidate |
| Ai.DifficultyCanPlayAnyCandidate | ai.py:111-128 | every tier other than "hard" can play any candidate for some draw and some roll in [0, 1), the range of random.random() |
| Game.Click | game.py:70-84 | a click changes the state iff the game is being played and the cell is an empty board cell, and then that cell holds the mover's stone |
| Game.PlayAt | game.py:76-84 | a failed placement changes nothing; a successful one changes only the board, the game state, the winner and the player to move: a stone completing five ends the game with the mover as winner; otherwise a full board ends in a draw (winner 0); otherwise the turn passes to 3 - p |
| Game.StartGame | game.py:96-112 | leaves the menu with an empty board, player 1 to move and no winner; entries 0, 1, 2, 3 select "2player", "ai_easy", "ai_medium", "ai_hard", any other index keeps the mode, and the selection is kept |
| Game.ResetGame | game.py:114-119 | empty board, player 1 to move, no winner; mode and menu are kept |
| Game.MenuUp | game.py:59 | moves the selection up one entry, wrapping from the first to the last |
| Game.MenuDown | game.py:61 | moves the selection down one entry, wrapping from the last to the first |
| Game.MenuWrapsAround | game.py:58-61 | up undoes down and down undoes up |
| Game.Split | game.py:124 | str.split: at least one part, more than one iff the separator occurs, and no part contains it |
| Game.SplitJoin | game.py:124 | joining the parts with the separator gives the string back |
| Game.SplitAtFirst | game.py:124 | the first separator ends the first part |
| Game.DifficultyAfterPrefix | game.py:124 | DifficultyOf: a mode "ai_" + word, where word has no "_", gives the difficulty word |
| Game.MenuEntryDifficulty | game.py:105-124 | starting from the first menu entry gives the two-player game, and the other entries make the computer play easy, medium and hard in menu order |
| Game.DifficultyOfModes | game.py:105-124 | "2player" and "ai_medium" give "medium", "ai_easy" gives "easy", "ai_hard" gives "hard" |
| Game.HandleMenuEvent | game.py:55-66 | Up and Down set the selection to (s - 1) % 4 and (s + 1) % 4, keeping it on a menu entry and changing nothing else; Return is start_game (empty board, no winner, player 1, the selected entry's mode); other events do nothing |
| Game.HandleGameEvent | game.py:68-94 | M returns to the menu keeping the board; R is reset_game, emptying the board with player 1 to move and no winner; keys other than R and M do nothing; the mode and menu selection never change |
| Game.Step | game.py:209-223 | the computer moves only when AiDue holds (never in the two-player game or from the menu); clicks are ignored in the menu and the menu keys during a game |
| Game.AiMove | game.py:121-135 | the computer moves only while playing with player 2 to move; otherwise nothing changes |
| Game.AiMoveIsLegal | game.py:123-127 | in a playing state the cell the computer picks is always accepted by place_stone |
| Game.AiTurnPlaysOneStone | game.py:220-223 | when the loop runs the computer, one empty cell gets player 2's stone, no other cell changes, and then the game is over or player 1 is to move |
| Game.EmptyHasNoFive | game.py:102 | an empty board holds no five of either player |
| Game.QuietPlacementKeepsNoFive | game.py:80-84 | a placement that check_winner does not report as winning leaves no five on the board for either player |
| Game.PlayAtKeepsInv | game.py:76-84 | from a playing state, a placement keeps the invariant: a winner has five, a draw is full with no five, and an unfinished game is neither full nor won |
| Game.Init | game.py:8-40 | the initial state has an empty 15 x 15 board, player 1 to move, mode "2player", state "playing" while the menu is shown on its first entry, no winner, and it satisfies the invariant |
| Game.StepKeepsInv | game.py:55-94 | every menu key, game key, click and computer turn keeps the invariant |
| Game.ReachableStatesKeepInv | game.py:204-223 | every sequence of events keeps the invariant |
| Game.OutcomeIsJustified | game.py:77-82 | in every reachable finished game, winner 1 or 2 has five in a row and winner 0 means a full board with no five |

## Left out

- Rendering, fonts, colours, the window, the 60 fps clock and the 500 ms AI delay (`board.py` draw, `game.py` draw_menu, draw_game_info and draw_game_over). These are I/O.
- `get_cell_from_pos` and `get_stone_center`: pixel-to-cell conversion with floating point `round`. A click is modelled as the cell it maps to, or None.
- Escape and the window's close button, which call `sys.exit`. `main.py` only constructs and runs the game.
- `random.choice` and `random.random()` are not modelled as distributions. Each is a parameter (`pick`, `roll`), and the reachability lemmas state that every allowed outcome occurs for some value.
- Ai.KeyOrdersLikeBlend: float rounding of `my + 0.8 * opp` is not modelled. The model orders cells by the exact real value and by the equivalent integer `5 * my + 4 * opp`. With scores of at most 40000 and a double's precision, ties and order are the same.
- The board is square: numpy's `shape[0]` and `shape[1]` are both `size` in the program, so the model uses one length.
- Ai.EvaluatePosition: requires an in-bounds cell. The program calls it only on cells from `get_available_moves`; with a negative index numpy would wrap around.
- Game.StartGame: a selected entry outside 0..3 keeps the previous mode, as the program's if/elif chain does. The menu keys never produce such an index.
- Stones are 1 and 2 and the game state is a value. The mutable numpy array and the AI's temporary write are modelled by `EvaluateInPlace`, which returns the grid it leaves behind.
- Game.Step: the run loop's frame structure is not modelled. The program runs the computer's turn once per frame, after that frame's events (game.py:209-223). In the model `AiTick` is an event of its own, so the computer's turn may come later or not at all. The invariants are proved over this larger set of event orders.

=== FILE: ai.dfy ===
/**
  The heuristic opponent: per-cell scoring by run length and open ends,
  candidate enumeration near existing stones, argmax selection with ties,
  and the three difficulty tiers. Random choices are parameters: `pick`
  stands for the index random.choice draws (taken modulo the list length)
  and `roll` for the value of random.random().
 */
module Ai {
  import opened Board
  import opened Runs

  type Cell = (int, int)

  datatype Ai = Ai(playerId: int, opponentId: int)

  /** AI(player_id): the opponent is the other of the two players. */
  function NewAi(playerId: int): (ai: Ai)
    ensures ai.playerId == playerId
    ensures playerId == 1 ==> ai.opponentId == 2
    ensures playerId == 2 ==> ai.opponentId == 1
  {
    Ai(playerId, 3 - playerId)
  }

  /** A step of i >= 1 units along a direction leaves the starting cell. */
  lemma StepLeaves(i: int, dr: int, dc: int)
    requires IsStep(dr, dc) && i >= 1
    ensures i * dr != 0 || i * dc != 0
  {
    if dr == 1 {
      assert i * dr == i;
    } else if dr == -1 {
      assert i * dr == -i;
    } else if dc == 1 {
      assert i * dc == i;
    } else {
      assert i * dc == -i;
    }
  }

  const FiveScore := 10000
  const OpenFourScore := 1000
  const OpenThreeScore := 100
  const OpenTwoScore := 10
  /** Returned for a cell that already holds a stone. */
  const OccupiedScore := -1000

  /** The cell past a run end is off the grid or holds a stone. */
  predicate BlockedCell(g: Grid, r: int, c: int)
    requires Square(g)
  {
    !InBounds(|g|, r, c) || Occupied(g, r, c)
  }

  /** 1 if the cell just past the run walked in direction (dr, dc) is blocked, else 0. */
  function EndBlocked(g: Grid, row: int, col: int, dr: int, dc: int, p: int): int
    requires Square(g) && IsStep(dr, dc)
  {
    var f := RunLen(g, row, col, dr, dc, p);
    if BlockedCell(g, row + (f + 1) * dr, col + (f + 1) * dc) then 1 else 0
  }

  /** `blocked` of one axis: how many of the two cells just past the run are blocked. */
  function Blocked(g: Grid, row: int, col: int, dr: int, dc: int, p: int): int
    requires Square(g) && IsStep(dr, dc)
  {
    EndBlocked(g, row, col, dr, dc, p) + EndBlocked(g, row, col, -dr, -dc, p)
  }

  /** The score table of evaluate_position. */
  function LineScore(count: int, blocked: int): int {
    if count >= WinLength then FiveScore
    else if count == 4 && blocked == 0 then OpenFourScore
    else if count == 3 && blocked == 0 then OpenThreeScore
    else if count == 2 && blocked == 0 then OpenTwoScore
    else 0
  }

  /** The contribution of one axis, with (row, col) counted as `p`. */
  function AxisScore(g: Grid, row: int, col: int, dr: int, dc: int, p: int): int
    requires Square(g) && IsStep(dr, dc)
  {
    LineScore(AxisCount(g, row, col, dr, dc, p), Blocked(g, row, col, dr, dc, p))
  }

  /** The sum of the axis scores of axes k.. . */
  function SumAxes(g: Grid, row: int, col: int, p: int, k: nat): (s: int)
    requires Square(g) && k <= |Axes|
    ensures 0 <= s <= (|Axes| - k) * FiveScore
    decreases |Axes| - k
  {
    if k == |Axes| then 0
    else AxisScore(g, row, col, Axes[k].0, Axes[k].1, p) + SumAxes(g, row, col, p, k + 1)
  }

  /**
    evaluate_position, side-effect free: (row, col) is treated as holding
    `player` without writing it. The walks start next to (row, col) and
    never come back to it, so they read the grid as it is.
   */
  function EvaluatePosition(g: Grid, row: int, col: int, player: int): (score: int)
    requires Square(g) && InBounds(|g|, row, col)
    ensures g[row][col] != Empty ==> score == OccupiedScore
    ensures g[row][col] == Empty ==> 0 <= score <= |Axes| * FiveScore
  {
    if g[row][col] != Empty then OccupiedScore else SumAxes(g, row, col, player, 0)
  }

  // ---------------------------------------------------------------------
  // The mutate-score-restore version

  /** Overwriting the walk's origin changes neither the runs nor their ends. */
  lemma WalkIgnoresOrigin(g: Grid, row: int, col: int, dr: int, dc: int, p: int, v: int)
    requires Square(g) && IsStep(dr, dc) && InBounds(|g|, row, col)
    ensures RunLen(Set(g, row, col, v), row, col, dr, dc, p) == RunLen(g, row, col, dr, dc, p)
  {
    var g' := Set(g, row, col, v);
    var k := RunLen(g, row, col, dr, dc, p);
    forall i | 1 <= i
      ensures StoneAt(g', row, col, dr, dc, i, p) <==> StoneAt(g, row, col, dr, dc, i, p)
    {
      StepLeaves(i, dr, dc);
    }
    forall i | 1 <= i <= k
      ensures StoneAt(g', row, col, dr, dc, i, p)
    {
      RunLenCovers(g, row, col, dr, dc, p, i);
    }
    RunLenStops(g, row, col, dr, dc, p);
    RunLenIs(g', row, col, dr, dc, p, k);
  }

  lemma EndBlockedIgnoresOrigin(g: Grid, row: int, col: int, dr: int, dc: int, p: int, v: int)
    requires Square(g) && IsStep(dr, dc) && InBounds(|g|, row, col)
    ensures EndBlocked(Set(g, row, col, v), row, col, dr, dc, p) == EndBlocked(g, row, col, dr, dc, p)
  {
    var g' := Set(g, row, col, v);
    WalkIgnoresOrigin(g, row, col, dr, dc, p, v);
    var f := RunLen(g, row, col, dr, dc, p);
    var rf, cf := row + (f + 1) * dr, col + (f + 1) * dc;
    assert rf != row || cf != col by { StepLeaves(f + 1, dr, dc); }
    assert BlockedCell(g', rf, cf) == BlockedCell(g, rf, cf);
  }

  lemma AxisScoreIgnoresOrigin(g: Grid, row: int, col: int, dr: int, dc: int, p: int, v: int)
    requires Square(g) && IsStep(dr, dc) && InBounds(|g|, row, col)
    ensures AxisCount(Set(g, row, col, v), row, col, dr, dc, p) == AxisCount(g, row, col, dr, dc, p)
    ensures Blocked(Set(g, row, col, v), row, col, dr, dc, p) == Blocked(g, row, col, dr, dc, p)
  {
    WalkIgnoresOrigin(g, row, col, dr, dc, p, v);
    WalkIgnoresOrigin(g, row, col, -dr, -dc, p, v);
    EndBlockedIgnoresOrigin(g, row, col, dr, dc, p, v);
    EndBlockedIgnoresOrigin(g, row, col, -dr, -dc, p, v);
  }

  /**
    One while loop of evaluate_position and the test of the cell where it
    stopped (ai.py:26-32): 1 if that cell is off the grid or not empty.
   */
  method WalkToEnd(board: Grid, row: int, col: int, dr: int, dc: int, player: int)
      returns (n: nat, blocked: int)
    requires Square(board) && IsStep(dr, dc)
    ensures n == RunLen(board, row, col, dr, dc, player)
    ensures blocked == EndBlocked(board, row, col, dr, dc, player)
  {
    var r, c;
    n, r, c := Walk(board, row, col, dr, dc, player);
    blocked := 0;
    if !(0 <= r < |board| && 0 <= c < |board|) || board[r][c] != Empty {
      blocked := blocked + 1;
    }
  }

  /** One axis of evaluate_position (ai.py:22-41). */
  method ScanAxis(board: Grid, row: int, col: int, dr: int, dc: int, player: int)
      returns (count: int, blocked: int)
    requires Square(board) && IsStep(dr, dc)
    ensures count == AxisCount(board, row, col, dr, dc, player)
    ensures blocked == Blocked(board, row, col, dr, dc, player)
  {
    var f, front := WalkToEnd(board, row, col, dr, dc, player);
    var b, back := WalkToEnd(board, row, col, -dr, -dc, player);
    count := 1 + f + b;
    blocked := front + back;
  }

  /**
    evaluate_position as the source runs it (ai.py:10-56): write `player`
    into the cell, scan the four axes, then write 0 back. The grid it hands
    back is the grid it was given, and the score is that of the
    side-effect-free EvaluatePosition.
   */
  method EvaluateInPlace(g: Grid, row: int, col: int, player: int) returns (score: int, after: Grid)
    requires Square(g) && InBounds(|g|, row, col)
    ensures after == g
    ensures score == EvaluatePosition(g, row, col, player)
  {
    if g[row][col] != Empty {
      return OccupiedScore, g;
    }
    var board := Set(g, row, col, player);
    score := 0;
    var k := 0;
    while k < |Axes|
      invariant 0 <= k <= |Axes|
      invariant score + SumAxes(g, row, col, player, k) == SumAxes(g, row, col, player, 0)
    {
      var dr, dc := Axes[k].0, Axes[k].1;
      var count, blocked := ScanAxis(board, row, col, dr, dc, player);
      AxisScoreIgnoresOrigin(g, row, col, dr, dc, player, player);
      if count >= WinLength {
        score := score + FiveScore;
      } else if count == 4 && blocked == 0 {
        score := score + OpenFourScore;
      } else if count == 3 && blocked == 0 {
        score := score + OpenThreeScore;
      } else if count == 2 && blocked == 0 {
        score := score + OpenTwoScore;
      }
      k := k + 1;
    }
    after := Set(board, row, col, Empty);
    SetRestores(g, row, col, player);
  }

  // ---------------------------------------------------------------------
  // What the score means

  /**
    The code counts an end as blocked when the cell past it is not 0; since
    the walk stops only on a cell that is off the grid or not `p`, that is
    the same as "off the grid or holding another player's stone".
   */
  lemma BlockedMeansOffGridOrForeign(g: Grid, row: int, col: int, dr: int, dc: int, p: int)
    requires Square(g) && IsStep(dr, dc) && p != Empty
    ensures var f := RunLen(g, row, col, dr, dc, p);
      var r, c := row + (f + 1) * dr, col + (f + 1) * dc;
      BlockedCell(g, r, c) <==> !InBounds(|g|, r, c) || (g[r][c] != Empty && g[r][c] != p)
  {
    RunLenStops(g, row, col, dr, dc, p);
  }

  /** Some axis among k.. reaches a count of WinLength. */
  predicate SomeAxisWins(g: Grid, row: int, col: int, p: int, k: nat)
    requires Square(g) && k <= |Axes|
  {
    exists j :: k <= j < |Axes| && AxisCount(g, row, col, Axes[j].0, Axes[j].1, p) >= WinLength
  }

  lemma {:induction false} SumAxesThreshold(g: Grid, row: int, col: int, p: int, k: nat)
    requires Square(g) && k <= |Axes|
    ensures SomeAxisWins(g, row, col, p, k) ==> SumAxes(g, row, col, p, k) >= FiveScore
    ensures !SomeAxisWins(g, row, col, p, k) ==> SumAxes(g, row, col, p, k) <= (|Axes| - k) * OpenFourScore
    decreases |Axes| - k
  {
    if k < |Axes| {
      SumAxesThreshold(g, row, col, p, k + 1);
      AxesAreSteps(k);
    }
  }

  /**
    An empty cell scores FiveScore or more for `player` exactly when placing
    `player` there wins: no number of open fours adds up to a five.
   */
  lemma EvaluateDetectsWin(g: Grid, row: int, col: int, player: int)
    requires Square(g) && InBounds(|g|, row, col) && g[row][col] == Empty
    ensures var b' := PlaceStone(Board(|g|, g), row, col, player).1;
      EvaluatePosition(g, row, col, player) >= FiveScore <==> CheckWinner(b', row, col, player)
  {
    var b' := PlaceStone(Board(|g|, g), row, col, player).1;
    assert b'.cells == Set(g, row, col, player);
    SumAxesThreshold(g, row, col, player, 0);
    WinsFromAnyAxis(b'.cells, row, col, player, 0);
    forall j | IsAxis(j)
      ensures AxisCount(b'.cells, row, col, Axes[j].0, Axes[j].1, player)
           == AxisCount(g, row, col, Axes[j].0, Axes[j].1, player)
    {
      AxesAreSteps(j);
      AxisScoreIgnoresOrigin(g, row, col, Axes[j].0, Axes[j].1, player, player);
    }
  }

  /**
    A maximal run through the cell (offsets lo..hi, the cell itself counted
    as `p`) with an empty cell on the grid past each end scores by length
    alone: 1000 for an open four, 100 for an open three, 10 for an open two.
   */
  lemma OpenRunScore(g: Grid, row: int, col: int, k: int, p: int, lo: int, hi: int)
    requires Square(g) && IsAxis(k) && lo <= 0 <= hi && p != Empty
    requires Line(g, row, col, Axes[k].0, Axes[k].1, 1, hi, p)
    requires Line(g, row, col, Axes[k].0, Axes[k].1, lo, -1, p)
    requires StoneAt(g, row, col, Axes[k].0, Axes[k].1, lo - 1, Empty)
    requires StoneAt(g, row, col, Axes[k].0, Axes[k].1, hi + 1, Empty)
    ensures hi - lo + 1 == 4 ==> AxisScore(g, row, col, Axes[k].0, Axes[k].1, p) == OpenFourScore
    ensures hi - lo + 1 == 3 ==> AxisScore(g, row, col, Axes[k].0, Axes[k].1, p) == OpenThreeScore
    ensures hi - lo + 1 == 2 ==> AxisScore(g, row, col, Axes[k].0, Axes[k].1, p) == OpenTwoScore
  {
    var dr, dc := Axes[k].0, Axes[k].1;
    AxesAreSteps(k);
    RunBounds(g, row, col, dr, dc, p, lo, hi);
    OpenEnds(g, row, col, dr, dc, p, lo, hi);
  }

  lemma OpenEnds(g: Grid, row: int, col: int, dr: int, dc: int, p: int, lo: int, hi: int)
    requires Square(g) && IsStep(dr, dc) && lo <= 0 <= hi
    requires RunLen(g, row, col, dr, dc, p) == hi && RunLen(g, row, col, -dr, -dc, p) == -lo
    requires StoneAt(g, row, col, dr, dc, lo - 1, Empty) && StoneAt(g, row, col, dr, dc, hi + 1, Empty)
    ensures Blocked(g, row, col, dr, dc, p) == 0
  {
    assert row + (-lo + 1) * (-dr) == row + (lo - 1) * dr;
    assert col + (-lo + 1) * (-dc) == col + (lo - 1) * dc;
  }

  // ---------------------------------------------------------------------
  // Candidate moves

  /** (r, c) is on the grid and empty. */
  predicate IsEmptyCell(g: Grid, m: Cell)
    requires Square(g)
  {
    Stone(g, m.0, m.1, Empty)
  }

  /** Some stone lies within Chebyshev distance 1 of (r, c). */
  ghost predicate NearStone(g: Grid, r: int, c: int)
    requires Square(g)
  {
    exists r', c' :: Occupied(g, r', c') && -1 <= r' - r <= 1 && -1 <= c' - c <= 1
  }

  /** The 3 x 3 neighbourhood in the order the source visits it. */
  const Around: seq<(int, int)> :=
    [(-1, -1), (-1, 0), (-1, 1), (0, -1), (0, 0), (0, 1), (1, -1), (1, 0), (1, 1)]

  /** has_neighbor: the scan of offsets i.. of the neighbourhood finds a stone. */
  function NeighborFrom(g: Grid, row: int, col: int, i: nat): bool
    requires Square(g) && i <= |Around|
    decreases |Around| - i
  {
    if i == |Around| then false
    else Occupied(g, row + Around[i].0, col + Around[i].1) || NeighborFrom(g, row, col, i + 1)
  }

  function HasNeighbor(g: Grid, row: int, col: int): bool
    requires Square(g)
  {
    NeighborFrom(g, row, col, 0)
  }

  lemma {:induction false} NeighborFromFinds(g: Grid, row: int, col: int, i: nat)
    requires Square(g) && i <= |Around|
    ensures NeighborFrom(g, row, col, i) <==>
      exists j :: i <= j < |Around| && Occupied(g, row + Around[j].0, col + Around[j].1)
    decreases |Around| - i
  {
    if i < |Around| {
      NeighborFromFinds(g, row, col, i + 1);
    }
  }

  /** The 3 x 3 scan finds a stone iff one lies within Chebyshev distance 1. */
  lemma HasNeighborIsNearStone(g: Grid, row: int, col: int)
    requires Square(g)
    ensures HasNeighbor(g, row, col) <==> NearStone(g, row, col)
  {
    NeighborFromFinds(g, row, col, 0);
    if NearStone(g, row, col) {
      var r', c' :| Occupied(g, r', c') && -1 <= r' - row <= 1 && -1 <= c' - col <= 1;
      var j := (r' - row + 1) * 3 + (c' - col + 1);
      assert Around[j] == (r' - row, c' - col);
      assert Occupied(g, row + Around[j].0, col + Around[j].1);
    }
  }

  /** Row-major order: (r, c) comes at or after (row, col). */
  predicate From(m: Cell, row: int, col: int) {
    m.0 > row || (m.0 == row && m.1 >= col)
  }

  /**
    The double loop of get_available_moves from (row, col) on: empty cells
    that have a neighbouring stone, or every empty cell when `dense`.
   */
  function Scan(g: Grid, row: int, col: int, dense: bool): (moves: seq<Cell>)
    requires Square(g) && 0 <= row <= |g| && 0 <= col <= |g|
    ensures forall m :: m in moves <==>
      From(m, row, col) && IsEmptyCell(g, m) && (dense || HasNeighbor(g, m.0, m.1))
    decreases |g| - row, |g| - col
  {
    if row == |g| then []
    else if col == |g| then Scan(g, row + 1, 0, dense)
    else
      (if g[row][col] == Empty && (HasNeighbor(g, row, col) || dense) then [(row, col)] else []) +
      Scan(g, row, col + 1, dense)
  }

  /** Boards with fewer cells than this consider every empty cell. */
  const DenseArea := 50

  /** Some empty cell has a stone within Chebyshev distance 1. */
  ghost predicate HasFrontier(g: Grid)
    requires Square(g)
  {
    exists m :: IsEmptyCell(g, m) && NearStone(g, m.0, m.1)
  }

  /** Which cells get_available_moves offers. */
  ghost predicate Candidate(g: Grid, m: Cell)
    requires Square(g)
  {
    IsEmptyCell(g, m) && (|g| * |g| < DenseArea || !HasFrontier(g) || NearStone(g, m.0, m.1))
  }

  /** get_available_moves. */
  function GetAvailableMoves(g: Grid): (moves: seq<Cell>)
    requires Square(g)
    ensures forall m :: m in moves ==> IsEmptyCell(g, m)
    ensures moves != [] <==> exists m :: IsEmptyCell(g, m)
  {
    var moves := Scan(g, 0, 0, |g| * |g| < DenseArea);
    var result := if moves != [] then moves else Scan(g, 0, 0, true);
    AvailableMovesAre(g, moves, result);
    result
  }

  /** The scan from the first cell, in terms of Chebyshev distance. */
  lemma ScanFromOrigin(g: Grid, dense: bool)
    requires Square(g)
    ensures forall m :: m in Scan(g, 0, 0, dense) <==>
      IsEmptyCell(g, m) && (dense || NearStone(g, m.0, m.1))
  {
    forall m | IsEmptyCell(g, m)
      ensures HasNeighbor(g, m.0, m.1) <==> NearStone(g, m.0, m.1)
    {
      HasNeighborIsNearStone(g, m.0, m.1);
    }
  }

  lemma AvailableMovesAre(g: Grid, moves: seq<Cell>, result: seq<Cell>)
    requires Square(g)
    requires moves == Scan(g, 0, 0, |g| * |g| < DenseArea)
    requires result == if moves != [] then moves else Scan(g, 0, 0, true)
    ensures forall m :: m in result <==> Candidate(g, m)
    ensures result != [] <==> exists m :: IsEmptyCell(g, m)
  {
    var dense := |g| * |g| < DenseArea;
    ScanFromOrigin(g, dense);
    ScanFromOrigin(g, true);
    var frontier := !dense && moves != [];
    if frontier {
      assert IsEmptyCell(g, moves[0]) && NearStone(g, moves[0].0, moves[0].1);
    }
    forall m
      ensures m in result <==> Candidate(g, m)
    {
      if frontier {
        assert HasFrontier(g);
        assert m in result <==> IsEmptyCell(g, m) && NearStone(g, m.0, m.1);
      } else if dense {
        assert m in result <==> IsEmptyCell(g, m);
      } else {
        assert !HasFrontier(g);
        assert m in result <==> IsEmptyCell(g, m);
      }
    }
    if result != [] {
      assert result[0] in result;
      assert IsEmptyCell(g, result[0]);
    }
    if exists m :: IsEmptyCell(g, m) {
      var m :| IsEmptyCell(g, m);
      assert m in Scan(g, 0, 0, true);
    }
  }

  /**
    The cells get_available_moves offers: on a board of fewer than 50 cells
    every empty cell; otherwise the empty cells within Chebyshev distance 1
    of a stone, or every empty cell when there are none such.
   */
  lemma AvailableMovesAreCandidates(g: Grid)
    requires Square(g)
    ensures forall m :: m in GetAvailableMoves(g) <==> Candidate(g, m)
  {
    var moves := Scan(g, 0, 0, |g| * |g| < DenseArea);
    AvailableMovesAre(g, moves, GetAvailableMoves(g));
  }

  /** On an empty board with at least one cell, every cell is a candidate. */
  lemma EmptyBoardOffersEveryCell(n: nat)
    ensures forall r, c :: InBounds(n, r, c) ==> (r, c) in GetAvailableMoves(New(n).cells)
  {
    var g := New(n).cells;
    AvailableMovesAreCandidates(g);
    assert !HasFrontier(g);
  }

  // ---------------------------------------------------------------------
  // Move selection

  /**
    The blend my + 0.8 * opp of make_move, scaled by 5 so that it stays an
    integer: 5 * my + 4 * opp orders cells exactly as the blend does.
   */
  function Key(g: Grid, ai: Ai, m: Cell): int
    requires Square(g) && InBounds(|g|, m.0, m.1)
  {
    5 * EvaluatePosition(g, m.0, m.1, ai.playerId) + 4 * EvaluatePosition(g, m.0, m.1, ai.opponentId)
  }

  /** total_score of make_move, in exact real arithmetic. */
  function Blend(g: Grid, ai: Ai, m: Cell): real
    requires Square(g) && InBounds(|g|, m.0, m.1)
  {
    EvaluatePosition(g, m.0, m.1, ai.playerId) as real + EvaluatePosition(g, m.0, m.1, ai.opponentId) as real * 0.8
  }

  lemma KeyOrdersLikeBlend(g: Grid, ai: Ai, m: Cell, m': Cell)
    requires Square(g) && InBounds(|g|, m.0, m.1) && InBounds(|g|, m'.0, m'.1)
    ensures Key(g, ai, m) <= Key(g, ai, m') <==> Blend(g, ai, m) <= Blend(g, ai, m')
    ensures Key(g, ai, m) == Key(g, ai, m') <==> Blend(g, ai, m) == Blend(g, ai, m')
  {
    assert Key(g, ai, m) as real == 5.0 * Blend(g, ai, m);
    assert Key(g, ai, m') as real == 5.0 * Blend(g, ai, m');
  }

  predicate OnGrid(g: Grid, moves: seq<Cell>)
    requires Square(g)
  {
    forall m :: m in moves ==> InBounds(|g|, m.0, m.1)
  }

  /** best_score and best_moves of make_move; no ties yet stands for -inf. */
  datatype Tally = Tally(best: int, ties: seq<Cell>)

  /** The make_move loop over `moves`, in order. */
  function Collect(g: Grid, ai: Ai, moves: seq<Cell>): (t: Tally)
    requires Square(g) && OnGrid(g, moves)
    ensures t.ties == [] <==> moves == []
    ensures forall m :: m in t.ties ==> m in moves && Key(g, ai, m) == t.best
    ensures forall m :: m in moves ==> Key(g, ai, m) <= t.best
    ensures forall m :: m in moves && Key(g, ai, m) == t.best ==> m in t.ties
    decreases |moves|
  {
    if moves == [] then Tally(0, [])
    else
      var t := Collect(g, ai, moves[..|moves| - 1]);
      var m := moves[|moves| - 1];
      assert moves == moves[..|moves| - 1] + [m];
      var s := Key(g, ai, m);
      if t.ties == [] || s > t.best then Tally(s, [m])
      else if s == t.best then Tally(t.best, t.ties + [m])
      else t
  }

  /** `m` scores at least as well as every candidate. */
  predicate IsBest(g: Grid, ai: Ai, moves: seq<Cell>, m: Cell)
    requires Square(g) && OnGrid(g, moves)
  {
    m in moves && forall m' :: m' in moves ==> Key(g, ai, m') <= Key(g, ai, m)
  }

  /**
    The index random.choice draws from a list of n > 0 items. The first
    branch equals pick % n; it is split off only so that the solver need
    not reason about % when the index is already in range.
   */
  function Draw(n: nat, pick: nat): (i: nat)
    requires n > 0
    ensures i < n
    ensures pick < n ==> i == pick
  {
    if pick < n then pick else pick % n
  }

  /** make_move: (0, 0) without candidates, else one of the best candidates. */
  function MakeMove(g: Grid, ai: Ai, pick: nat): (m: Cell)
    requires Square(g)
    ensures GetAvailableMoves(g) == [] ==> m == (0, 0)
    ensures GetAvailableMoves(g) != [] ==> IsBest(g, ai, GetAvailableMoves(g), m)
  {
    var moves := GetAvailableMoves(g);
    if moves == [] then (0, 0)
    else
      var t := Collect(g, ai, moves);
      t.ties[Draw(|t.ties|, pick)]
  }

  /** Every best candidate is the outcome of some random draw. */
  lemma MakeMoveCanPickAnyBest(g: Grid, ai: Ai, m: Cell)
    requires Square(g) && IsBest(g, ai, GetAvailableMoves(g), m)
    ensures exists pick: nat :: MakeMove(g, ai, pick) == m
  {
    var moves := GetAvailableMoves(g);
    var t := Collect(g, ai, moves);
    var first := t.ties[0];
    assert first in t.ties;
    assert Key(g, ai, first) <= Key(g, ai, m);
    assert Key(g, ai, m) == t.best;
    assert m in t.ties;
    var i :| 0 <= i < |t.ties| && t.ties[i] == m;
    assert MakeMove(g, ai, i) == m;
  }

  /** random.choice over the candidates, or (0, 0) without any. */
  function RandomMove(g: Grid, pick: nat): (m: Cell)
    requires Square(g)
    ensures GetAvailableMoves(g) == [] ==> m == (0, 0)
    ensures GetAvailableMoves(g) != [] ==> m in GetAvailableMoves(g)
  {
    var moves := GetAvailableMoves(g);
    if moves == [] then (0, 0) else moves[Draw(|moves|, pick)]
  }

  lemma RandomMoveCanPickAny(g: Grid, m: Cell)
    requires Square(g) && m in GetAvailableMoves(g)
    ensures exists pick: nat :: RandomMove(g, pick) == m
  {
    var moves := GetAvailableMoves(g);
    var i :| 0 <= i < |moves| && moves[i] == m;
    assert RandomMove(g, i) == m;
  }

  /** The probability with which "medium" plays the heuristic move. */
  const MediumGreedy: real := 0.7

  /**
    get_move_with_difficulty: "easy" plays a random candidate, "hard" a
    best one, anything else ("medium") a best one when the roll is below
    0.7 and a random candidate otherwise.
   */
  function GetMoveWithDifficulty(g: Grid, ai: Ai, difficulty: string, roll: real, pick: nat): (m: Cell)
    requires Square(g)
    ensures (exists e :: IsEmptyCell(g, e)) ==> m in GetAvailableMoves(g) && IsEmptyCell(g, m)
    ensures (forall e :: !IsEmptyCell(g, e)) ==> m == (0, 0)
    ensures (difficulty != "easy" && (difficulty == "hard" || roll < MediumGreedy) &&
             GetAvailableMoves(g) != []) ==> IsBest(g, ai, GetAvailableMoves(g), m)
  {
    if difficulty == "easy" then RandomMove(g, pick)
    else if difficulty == "hard" then MakeMove(g, ai, pick)
    else if roll < MediumGreedy then MakeMove(g, ai, pick)
    else RandomMove(g, pick)
  }

  /** Every tier but "hard" can play any candidate. */
  lemma DifficultyCanPlayAnyCandidate(g: Grid, ai: Ai, difficulty: string, m: Cell)
    requires Square(g) && m in GetAvailableMoves(g) && difficulty != "hard"
    ensures exists roll: real, pick: nat ::
      0.0 <= roll < 1.0 && GetMoveWithDifficulty(g, ai, difficulty, roll, pick) == m
  {
    RandomMoveCanPickAny(g, m);
    var pick: nat :| RandomMove(g, pick) == m;
    assert GetMoveWithDifficulty(g, ai, difficulty, 0.9, pick) == m;
  }
}

=== FILE: board.dfy ===
/**
  The Gomoku board: an N x N grid of cells holding 0 (empty), 1 or 2,
  guarded single-cell placement, the point-local five-in-a-row check
  through the stone just placed, the fullness test and the reset.
 */
module Board {

  type Grid = seq<seq<int>>

  const Empty := 0
  /** A run of this many stones (or more: overlines count) wins. */
  const WinLength := 5

  /** Every row has as many cells as there are rows. */
  predicate Square(g: Grid) {
    forall i :: 0 <= i < |g| ==> |g[i]| == |g|
  }

  datatype Board = Board(size: int, cells: Grid)

  predicate Valid(b: Board) {
    b.size >= 0 && |b.cells| == b.size && Square(b.cells)
  }

  predicate InBounds(n: int, r: int, c: int) {
    0 <= r < n && 0 <= c < n
  }

  /** Cell (r, c) is on the grid and holds `p`. */
  predicate Stone(g: Grid, r: int, c: int, p: int)
    requires Square(g)
  {
    InBounds(|g|, r, c) && g[r][c] == p
  }

  /** Cell (r, c) is on the grid and holds some stone. */
  predicate Occupied(g: Grid, r: int, c: int)
    requires Square(g)
  {
    InBounds(|g|, r, c) && g[r][c] != Empty
  }

  /** The cell `i` steps from (r, c) in direction (dr, dc) holds `p`. */
  predicate StoneAt(g: Grid, r: int, c: int, dr: int, dc: int, i: int, p: int)
    requires Square(g)
  {
    Stone(g, r + i * dr, c + i * dc, p)
  }

  /** The grid with cell (r, c) overwritten by `v`. */
  function Set(g: Grid, r: int, c: int, v: int): (g': Grid)
    requires Square(g) && InBounds(|g|, r, c)
    ensures Square(g') && |g'| == |g|
    ensures g'[r][c] == v
    ensures forall i, j :: InBounds(|g|, i, j) && (i != r || j != c) ==> g'[i][j] == g[i][j]
  {
    g[r := g[r][c := v]]
  }

  /** Writing a cell and then writing its old value back restores the grid. */
  lemma SetRestores(g: Grid, r: int, c: int, v: int)
    requires Square(g) && InBounds(|g|, r, c)
    ensures Set(Set(g, r, c, v), r, c, g[r][c]) == g
  {
    var g' := Set(Set(g, r, c, v), r, c, g[r][c]);
    forall i | 0 <= i < |g|
      ensures g'[i] == g[i]
    {
      assert |g'[i]| == |g[i]|;
    }
  }

  /** A grid of `n` rows of `n` empty cells. */
  function Zeros(n: nat): (g: Grid)
    ensures |g| == n && Square(g)
    ensures forall i, j :: InBounds(n, i, j) ==> g[i][j] == Empty
  {
    seq(n, _ => seq(n, _ => Empty))
  }

  /** Board(size): a fresh all-empty grid. */
  function New(size: nat): (b: Board)
    ensures Valid(b) && b.size == size
    ensures forall i, j :: InBounds(size, i, j) ==> b.cells[i][j] == Empty
  {
    Board(size, Zeros(size))
  }

  /**
    place_stone: succeeds iff (row, col) is on the board and empty; on success
    that one cell becomes `player`, on failure the board is returned untouched.
   */
  function PlaceStone(b: Board, row: int, col: int, player: int): (res: (bool, Board))
    requires Valid(b)
    ensures Valid(res.1) && res.1.size == b.size
    ensures res.0 <==> InBounds(b.size, row, col) && b.cells[row][col] == Empty
    ensures res.0 ==> res.1.cells[row][col] == player
    ensures res.0 ==> forall i, j :: InBounds(b.size, i, j) && (i != row || j != col) ==>
                        res.1.cells[i][j] == b.cells[i][j]
    ensures !res.0 ==> res.1 == b
  {
    if InBounds(b.size, row, col) && b.cells[row][col] == Empty then
      (true, Board(b.size, Set(b.cells, row, col, player)))
    else
      (false, b)
  }

  // ---------------------------------------------------------------------
  // Directional runs

  /** (dr, dc) is one of the eight unit steps of the king's move. */
  predicate IsStep(dr: int, dc: int) {
    -1 <= dr <= 1 && -1 <= dc <= 1 && (dr != 0 || dc != 0)
  }

  /** How many more steps along one coordinate stay meaningful. */
  function Reach(n: int, x: int, d: int): nat {
    if d > 0 then (if x < n then n - x else 0)
    else if d < 0 then (if x >= 0 then x + 1 else 0)
    else 0
  }

  function Budget(n: int, r: int, c: int, dr: int, dc: int): nat {
    if dr != 0 then Reach(n, r, dr) else Reach(n, c, dc)
  }

  /**
    The number of consecutive `p` stones met when walking from (r, c) in
    direction (dr, dc), not counting (r, c) itself: the while loops of
    check_winner and evaluate_position.
   */
  function RunLen(g: Grid, r: int, c: int, dr: int, dc: int, p: int): nat
    requires Square(g) && IsStep(dr, dc)
    decreases Budget(|g|, r, c, dr, dc)
  {
    if Stone(g, r + dr, c + dc, p) then 1 + RunLen(g, r + dr, c + dc, dr, dc, p) else 0
  }

  /** The four axes scanned, in the order the source scans them. */
  const Axes: seq<(int, int)> := [(0, 1), (1, 0), (1, 1), (1, -1)]

  predicate IsAxis(k: int) { 0 <= k < |Axes| }

  /** `count` of one axis: the cell itself plus the runs on both sides. */
  function AxisCount(g: Grid, r: int, c: int, dr: int, dc: int, p: int): nat
    requires Square(g) && IsStep(dr, dc)
  {
    1 + RunLen(g, r, c, dr, dc, p) + RunLen(g, r, c, -dr, -dc, p)
  }

  /** Axes k.. of the check_winner loop, with its early return. */
  function WinsFrom(g: Grid, r: int, c: int, p: int, k: nat): bool
    requires Square(g) && k <= |Axes|
    decreases |Axes| - k
  {
    if k == |Axes| then false
    else AxisCount(g, r, c, Axes[k].0, Axes[k].1, p) >= WinLength || WinsFrom(g, r, c, p, k + 1)
  }

  /** check_winner(row, col, player). */
  function CheckWinner(b: Board, row: int, col: int, player: int): bool
    requires Valid(b)
  {
    WinsFrom(b.cells, row, col, player, 0)
  }

  /** is_full: no cell is empty. */
  function IsFull(b: Board): (full: bool)
    requires Valid(b)
    ensures full <==> forall i, j :: InBounds(b.size, i, j) ==> b.cells[i][j] != Empty
  {
    RowsFull(b.cells, 0)
  }

  function RowsFull(g: Grid, i: nat): (full: bool)
    requires Square(g) && i <= |g|
    ensures full <==> forall r, c :: i <= r < |g| && 0 <= c < |g| ==> g[r][c] != Empty
    decreases |g| - i
  {
    if i == |g| then true else RowFull(g[i], 0) && RowsFull(g, i + 1)
  }

  function RowFull(row: seq<int>, j: nat): (full: bool)
    requires j <= |row|
    ensures full <==> forall c :: j <= c < |row| ==> row[c] != Empty
    decreases |row| - j
  {
    if j == |row| then true else row[j] != Empty && RowFull(row, j + 1)
  }

  /** reset: every cell empty again, size kept. */
  function Reset(b: Board): (b': Board)
    requires Valid(b)
    ensures Valid(b') && b'.size == b.size
    ensures forall i, j :: InBounds(b.size, i, j) ==> b'.cells[i][j] == Empty
    ensures b.size >= 1 ==> !IsFull(b')
  {
    New(b.size)
  }

  /**
    One while loop of check_winner (board.py:63-67): it walks from the cell
    next to (row, col) while the cells hold `p`; the stones it counts are
    exactly RunLen, and it stops on the first cell past the run.
   */
  method Walk(g: Grid, row: int, col: int, dr: int, dc: int, p: int)
      returns (count: nat, r: int, c: int)
    requires Square(g) && IsStep(dr, dc)
    ensures count == RunLen(g, row, col, dr, dc, p)
    ensures r == row + (count + 1) * dr && c == col + (count + 1) * dc
    ensures !Stone(g, r, c, p)
  {
    count := 0;
    r, c := row + dr, col + dc;
    while 0 <= r < |g| && 0 <= c < |g| && g[r][c] == p
      invariant r == row + (count + 1) * dr && c == col + (count + 1) * dc
      invariant count + RunLen(g, r - dr, c - dc, dr, dc, p) == RunLen(g, row, col, dr, dc, p)
      decreases RunLen(g, r - dr, c - dc, dr, dc, p)
    {
      count := count + 1;
      r, c := r + dr, c + dc;
    }
  }
}

=== FILE: game.dfy ===
/**
  The turn and outcome state machine of the game, without the pygame event
  plumbing: a placement either is ignored, ends the game with a winner,
  ends it in a draw (winner 0) or passes the turn with 3 - p; plus the
  menu, start, reset and the computer's move.
 */
module Game {
  import opened Board
  import opened Runs
  import opened Ai

  datatype Option<T> = None | Some(value: T)

  /** game_state: "playing", "game_over" or "menu". */
  datatype Phase = Playing | GameOver | Menu

  datatype Game = Game(
    board: Board,
    currentPlayer: int,
    mode: string,
    phase: Phase,
    winner: Option<int>,
    ai: Ai,
    showMenu: bool,
    selectedMode: int)

  const BoardSize := 15
  /** len(menu_options). */
  const MenuLength := 4
  /** The winner value recorded for a draw. */
  const DrawWinner := 0

  /**
    Game.__init__: an empty 15 x 15 board, player 1 to move, the menu shown
    on its first entry; the state satisfies the invariant of reachable states.
   */
  function Init(): (gm: Game)
    ensures Inv(gm)
    ensures gm.board.size == BoardSize
    ensures forall i, j :: InBounds(BoardSize, i, j) ==> gm.board.cells[i][j] == Empty
    ensures gm.currentPlayer == 1 && gm.winner == None && gm.showMenu && gm.selectedMode == 0
    ensures gm.mode == "2player" && gm.phase == Playing
  {
    EmptyHasNoFive(New(BoardSize));
    Game(New(BoardSize), 1, "2player", Playing, None, NewAi(2), true, 0)
  }

  // ---------------------------------------------------------------------
  // Placement

  /**
    The placement branch shared by the mouse handler and ai_move: place the
    current player's stone; if that fails nothing changes; if the stone
    completes five (or more) in a row the game is over with the current
    player as winner; if it fills the board the game is a draw; otherwise
    the turn passes to 3 - p.
   */
  function PlayAt(gm: Game, row: int, col: int): (gm': Game)
    requires Valid(gm.board)
    ensures Valid(gm'.board) && gm'.board.size == gm.board.size
    ensures var p := gm.currentPlayer;
      var (ok, b') := PlaceStone(gm.board, row, col, p);
      && (!ok ==> gm' == gm)
      && (ok ==> gm'.board == b' && gm'.mode == gm.mode && gm'.showMenu == gm.showMenu)
      && (ok ==> gm'.selectedMode == gm.selectedMode && gm'.ai == gm.ai)
      && (ok && FiveInRow(b'.cells, row, col, p) ==>
            gm'.phase == GameOver && gm'.winner == Some(p) && gm'.currentPlayer == p)
      && (ok && !FiveInRow(b'.cells, row, col, p) && IsFull(b') ==>
            gm'.phase == GameOver && gm'.winner == Some(DrawWinner) && gm'.currentPlayer == p)
      && (ok && !FiveInRow(b'.cells, row, col, p) && !IsFull(b') ==>
            gm'.phase == gm.phase && gm'.winner == gm.winner && gm'.currentPlayer == 3 - p)
  {
    var p := gm.currentPlayer;
    var (ok, b') := PlaceStone(gm.board, row, col, p);
    if !ok then gm
    else
      CheckWinnerMeansFive(b', row, col, p);
      if CheckWinner(b', row, col, p) then
        gm.(board := b', phase := GameOver, winner := Some(p))
      else if IsFull(b') then
        gm.(board := b', phase := GameOver, winner := Some(DrawWinner))
      else
        gm.(board := b', currentPlayer := 3 - p)
  }

  /**
    A left click, already mapped to a cell or to None outside the board: it
    changes the state iff the game is being played and the cell is an empty
    cell of the board, and then that cell holds the mover's stone.
   */
  function Click(gm: Game, cell: Option<Cell>): (gm': Game)
    requires Valid(gm.board)
    ensures Valid(gm'.board) && gm'.board.size == gm.board.size
    ensures gm' != gm <==> gm.phase == Playing && cell.Some? && IsEmptyCell(gm.board.cells, cell.value)
    ensures gm' != gm ==> gm'.board.cells[cell.value.0][cell.value.1] == gm.currentPlayer
  {
    if gm.phase == Playing && cell.Some? then PlayAt(gm, cell.value.0, cell.value.1) else gm
  }

  // ---------------------------------------------------------------------
  // Start, reset, menu

  /** The game mode of each menu entry. */
  function ModeName(i: int, current: string): string {
    if i == 0 then "2player"
    else if i == 1 then "ai_easy"
    else if i == 2 then "ai_medium"
    else if i == 3 then "ai_hard"
    else current
  }

  predicate KnownMode(mode: string) {
    mode == "2player" || mode == "ai_easy" || mode == "ai_medium" || mode == "ai_hard"
  }

  /** start_game: leave the menu and begin a fresh game in the selected mode. */
  function StartGame(gm: Game): (gm': Game)
    requires Valid(gm.board)
    ensures Valid(gm'.board) && gm'.board.size == gm.board.size
    ensures gm'.phase == Playing && gm'.currentPlayer == 1 && gm'.winner == None && !gm'.showMenu
    ensures forall i, j :: InBounds(gm.board.size, i, j) ==> gm'.board.cells[i][j] == Empty
    ensures gm'.selectedMode == gm.selectedMode
    ensures gm.selectedMode == 0 ==> gm'.mode == "2player"
    ensures gm.selectedMode == 1 ==> gm'.mode == "ai_easy"
    ensures gm.selectedMode == 2 ==> gm'.mode == "ai_medium"
    ensures gm.selectedMode == 3 ==> gm'.mode == "ai_hard"
    ensures 0 <= gm.selectedMode < MenuLength ==> KnownMode(gm'.mode)
    ensures !(0 <= gm.selectedMode < MenuLength) ==> gm'.mode == gm.mode
  {
    gm.(showMenu := false, phase := Playing, currentPlayer := 1, winner := None,
        board := Reset(gm.board), mode := ModeName(gm.selectedMode, gm.mode))
  }

  /** reset_game: a fresh game in the same mode; the menu state is kept. */
  function ResetGame(gm: Game): (gm': Game)
    requires Valid(gm.board)
    ensures Valid(gm'.board) && gm'.board.size == gm.board.size
    ensures gm'.phase == Playing && gm'.currentPlayer == 1 && gm'.winner == None
    ensures forall i, j :: InBounds(gm.board.size, i, j) ==> gm'.board.cells[i][j] == Empty
    ensures gm'.mode == gm.mode && gm'.showMenu == gm.showMenu && gm'.selectedMode == gm.selectedMode
  {
    gm.(phase := Playing, currentPlayer := 1, winner := None, board := Reset(gm.board))
  }

  /**
    The up key: (selected - 1) % 4. Python's % with a positive divisor
    never yields a negative value, like Dafny's.
   */
  function MenuUp(selected: int): (s: int)
    ensures 0 <= s < MenuLength
    ensures 0 < selected < MenuLength ==> s == selected - 1
    ensures selected == 0 ==> s == MenuLength - 1
  {
    (selected - 1) % MenuLength
  }

  /** The down key: (selected + 1) % 4. */
  function MenuDown(selected: int): (s: int)
    ensures 0 <= s < MenuLength
    ensures 0 <= selected < MenuLength - 1 ==> s == selected + 1
    ensures selected == MenuLength - 1 ==> s == 0
  {
    (selected + 1) % MenuLength
  }

  /** Up undoes down and down undoes up on every menu index. */
  lemma MenuWrapsAround(selected: int)
    requires 0 <= selected < MenuLength
    ensures MenuUp(MenuDown(selected)) == selected
    ensures MenuDown(MenuUp(selected)) == selected
  {
  }

  // ---------------------------------------------------------------------
  // The computer's move

  /** The parts of `s` between occurrences of `sep`, like str.split. */
  function Split(s: string, sep: char): (parts: seq<string>)
    ensures |parts| >= 1
    ensures sep in s <==> |parts| >= 2
    ensures forall i :: 0 <= i < |parts| ==> sep !in parts[i]
    decreases |s|
  {
    if s == [] then [[]]
    else
      var rest := Split(s[1..], sep);
      if s[0] == sep then [[]] + rest
      else [[s[0]] + rest[0]] + rest[1..]
  }

  /** Joining the parts back with `sep` gives the string again. */
  function Join(parts: seq<string>, sep: char): string
    requires |parts| >= 1
    decreases |parts|
  {
    if |parts| == 1 then parts[0] else parts[0] + [sep] + Join(parts[1..], sep)
  }

  lemma {:induction false} SplitJoin(s: string, sep: char)
    ensures Join(Split(s, sep), sep) == s
    decreases |s|
  {
    if s != [] {
      var rest := Split(s[1..], sep);
      SplitJoin(s[1..], sep);
      if s[0] != sep {
        if |rest| == 1 {
          assert Split(s, sep) == [[s[0]] + rest[0]];
        } else {
          assert Split(s, sep)[1..] == rest[1..];
          assert Join(rest, sep) == rest[0] + [sep] + Join(rest[1..], sep);
        }
      }
    }
  }

  /** The difficulty of a mode: the part after "_", "medium" without one. */
  function DifficultyOf(mode: string): string {
    if '_' in mode then Split(mode, '_')[1] else "medium"
  }

  /** A string without the separator is a single part. */
  lemma {:induction false} SplitWithoutSep(s: string, sep: char)
    requires sep !in s
    ensures Split(s, sep) == [s]
    decreases |s|
  {
    if s != [] {
      SplitWithoutSep(s[1..], sep);
      assert [s[0]] + s[1..] == s;
    }
  }

  /** The first separator ends the first part. */
  lemma {:induction false} SplitAtFirst(a: string, sep: char, b: string)
    requires sep !in a
    ensures Split(a + [sep] + b, sep) == [a] + Split(b, sep)
    decreases |a|
  {
    if a == [] {
      assert [sep] + b == ([sep] + b)[..1] + b;
      assert ([sep] + b)[1..] == b;
    } else {
      SplitAtFirst(a[1..], sep, b);
      assert (a + [sep] + b)[1..] == a[1..] + [sep] + b;
      assert [a[0]] + a[1..] == a;
    }
  }

  /** "ai_" followed by a word without "_" has that word as difficulty. */
  lemma DifficultyAfterPrefix(word: string)
    requires '_' !in word
    ensures DifficultyOf("ai" + "_" + word) == word
  {
    SplitAtFirst("ai", '_', word);
    SplitWithoutSep(word, '_');
    assert '_' in "ai" + "_" + word by {
      assert ("ai" + "_" + word)[2] == '_';
    }
  }

  lemma DifficultyOfModes()
    ensures DifficultyOf("2player") == "medium"
    ensures DifficultyOf("ai_easy") == "easy"
    ensures DifficultyOf("ai_medium") == "medium"
    ensures DifficultyOf("ai_hard") == "hard"
  {
    DifficultyAfterPrefix("easy");
    DifficultyAfterPrefix("medium");
    DifficultyAfterPrefix("hard");
    assert "ai" + "_" + "easy" == "ai_easy";
    assert "ai" + "_" + "medium" == "ai_medium";
    assert "ai" + "_" + "hard" == "ai_hard";
  }

  /**
    The difficulty the computer plays at after starting from each menu
    entry: the first entry is the two-player game, the others are easy,
    medium and hard in menu order.
   */
  lemma MenuEntryDifficulty(gm: Game)
    requires Valid(gm.board) && 0 <= gm.selectedMode < MenuLength
    ensures var mode := StartGame(gm).mode;
      && (gm.selectedMode == 0 <==> mode == "2player")
      && (gm.selectedMode == 1 ==> DifficultyOf(mode) == "easy")
      && (gm.selectedMode == 2 ==> DifficultyOf(mode) == "medium")
      && (gm.selectedMode == 3 ==> DifficultyOf(mode) == "hard")
  {
    DifficultyOfModes();
  }

  /** The cell the computer picks in the current position. */
  function AiChoice(gm: Game, roll: real, pick: nat): Cell
    requires Valid(gm.board)
  {
    GetMoveWithDifficulty(gm.board.cells, gm.ai, DifficultyOf(gm.mode), roll, pick)
  }

  /** ai_move: only while playing and with player 2 to move. */
  function AiMove(gm: Game, roll: real, pick: nat): (gm': Game)
    requires Valid(gm.board)
    ensures Valid(gm'.board) && gm'.board.size == gm.board.size
    ensures !(gm.phase == Playing && gm.currentPlayer == 2) ==> gm' == gm
  {
    if gm.phase == Playing && gm.currentPlayer == 2 then
      var m := AiChoice(gm, roll, pick);
      PlayAt(gm, m.0, m.1)
    else gm
  }

  /** The run loop lets the computer move when this holds. */
  predicate AiDue(gm: Game) {
    !gm.showMenu && gm.phase == Playing && gm.mode != "2player" && gm.currentPlayer == 2
  }

  // ---------------------------------------------------------------------
  // Events

  /** The inputs the handlers react to; quitting and Escape are left out. */
  datatype Event =
    | KeyUp | KeyDown | KeyReturn | KeyR | KeyM
    | LeftClick(cell: Option<Cell>)
    | AiTick(roll: real, pick: nat)

  /**
    handle_menu_events: the arrow keys move the selection and keep it on a
    menu entry, Return starts a game, and nothing else touches the game.
   */
  function HandleMenuEvent(gm: Game, e: Event): (gm': Game)
    requires Valid(gm.board)
    ensures Valid(gm'.board) && gm'.board.size == gm.board.size
    ensures 0 <= gm.selectedMode < MenuLength ==> 0 <= gm'.selectedMode < MenuLength
    ensures !e.KeyReturn? ==> gm'.board == gm.board && gm'.phase == gm.phase && gm'.mode == gm.mode
    ensures !(e.KeyUp? || e.KeyDown? || e.KeyReturn?) ==> gm' == gm
    ensures e.KeyReturn? ==> gm'.phase == Playing && !gm'.showMenu && gm'.currentPlayer == 1
    ensures e.KeyReturn? ==> gm' == StartGame(gm)
    ensures e.KeyUp? ==> gm' == gm.(selectedMode := MenuUp(gm.selectedMode))
    ensures e.KeyDown? ==> gm' == gm.(selectedMode := MenuDown(gm.selectedMode))
  {
    match e
    case KeyUp => gm.(selectedMode := MenuUp(gm.selectedMode))
    case KeyDown => gm.(selectedMode := MenuDown(gm.selectedMode))
    case KeyReturn => StartGame(gm)
    case _ => gm
  }

  /**
    handle_game_events: a click plays, R restarts, M returns to the menu
    keeping the board; the mode and the menu selection never change, and
    other keys do nothing.
   */
  function HandleGameEvent(gm: Game, e: Event): (gm': Game)
    requires Valid(gm.board)
    ensures Valid(gm'.board) && gm'.board.size == gm.board.size
    ensures gm'.mode == gm.mode && gm'.selectedMode == gm.selectedMode
    ensures e.KeyM? ==> gm'.showMenu && gm'.phase == Menu && gm'.board == gm.board
    ensures e.KeyR? ==> gm'.phase == Playing && gm'.currentPlayer == 1 && gm'.winner == None
    ensures e.KeyR? ==> forall i, j :: InBounds(gm.board.size, i, j) ==> gm'.board.cells[i][j] == Empty
    ensures e.KeyR? ==> gm' == ResetGame(gm)
    ensures !(e.LeftClick? || e.KeyR? || e.KeyM?) ==> gm' == gm
  {
    match e
    case LeftClick(cell) => Click(gm, cell)
    case KeyR => ResetGame(gm)
    case KeyM => gm.(showMenu := true, phase := Menu)
    case _ => gm
  }

  /**
    One event of the run loop: dispatch on the menu flag, or the computer's
    turn. The computer moves only when the loop's condition holds, so never
    in the two-player game or from the menu; clicks are ignored in the menu
    and the menu keys during a game.
   */
  function Step(gm: Game, e: Event): (gm': Game)
    requires Valid(gm.board)
    ensures Valid(gm'.board) && gm'.board.size == gm.board.size
    ensures e.AiTick? && gm' != gm ==> AiDue(gm)
    ensures e.AiTick? && gm.mode == "2player" ==> gm' == gm
    ensures gm.showMenu && (e.LeftClick? || e.KeyR? || e.KeyM?) ==> gm' == gm
    ensures !gm.showMenu && (e.KeyUp? || e.KeyDown? || e.KeyReturn?) ==> gm' == gm
  {
    match e
    case AiTick(roll, pick) => if AiDue(gm) then AiMove(gm, roll, pick) else gm
    case _ => if gm.showMenu then HandleMenuEvent(gm, e) else HandleGameEvent(gm, e)
  }

  // ---------------------------------------------------------------------
  // The invariant of reachable states

  /** No player has five in a row. */
  ghost predicate NoFive(b: Board)
    requires Valid(b)
  {
    !HasFive(b.cells, 1) && !HasFive(b.cells, 2)
  }

  /**
    What holds in every reachable state: while playing, the board is
    neither full nor won, so the point-local win check is enough; a
    recorded winner has five in a row; a recorded draw has a full board
    without any five.
   */
  ghost predicate Inv(gm: Game) {
    && Valid(gm.board) && gm.board.size == BoardSize
    && (gm.currentPlayer == 1 || gm.currentPlayer == 2)
    && 0 <= gm.selectedMode < MenuLength
    && KnownMode(gm.mode)
    && gm.ai == NewAi(2)
    && (gm.phase == Menu ==> gm.showMenu)
    && (gm.phase == Playing ==> gm.winner == None && !IsFull(gm.board) && NoFive(gm.board))
    && (gm.phase == GameOver ==>
          || (gm.winner == Some(DrawWinner) && IsFull(gm.board) && NoFive(gm.board))
          || (gm.winner == Some(1) && HasFive(gm.board.cells, 1))
          || (gm.winner == Some(2) && HasFive(gm.board.cells, 2)))
  }

  /** An empty board holds no five. */
  lemma EmptyHasNoFive(b: Board)
    requires Valid(b)
    requires forall i, j :: InBounds(b.size, i, j) ==> b.cells[i][j] == Empty
    ensures NoFive(b)
  {
    forall r, c, k, p | IsAxis(k) && p != Empty
      ensures !FiveFrom(b.cells, r, c, k, p)
    {
      FiveStartsWithStone(b.cells, r, c, k, p);
    }
  }

  lemma FiveStartsWithStone(g: Grid, r: int, c: int, k: int, p: int)
    requires Square(g) && IsAxis(k)
    ensures FiveFrom(g, r, c, k, p) ==> Stone(g, r, c, p)
  {
    if FiveFrom(g, r, c, k, p) {
      assert StoneAt(g, r, c, Axes[k].0, Axes[k].1, 0, p);
    }
  }

  /** A placement that does not win leaves the board without a five. */
  lemma QuietPlacementKeepsNoFive(b: Board, row: int, col: int, p: int)
    requires Valid(b) && InBounds(b.size, row, col) && b.cells[row][col] == Empty
    requires (p == 1 || p == 2) && NoFive(b)
    requires !CheckWinner(PlaceStone(b, row, col, p).1, row, col, p)
    ensures NoFive(PlaceStone(b, row, col, p).1)
  {
    var b' := PlaceStone(b, row, col, p).1;
    PlacedFiveIsLocal(b, row, col, p);
    if HasFive(b'.cells, 3 - p) {
      FiveAvoidsOtherCell(b.cells, b'.cells, row, col, 3 - p);
    }
  }

  /** A placement from a playing state keeps the invariant. */
  lemma PlayAtKeepsInv(gm: Game, row: int, col: int)
    requires Inv(gm) && gm.phase == Playing
    ensures Inv(PlayAt(gm, row, col))
  {
    var p := gm.currentPlayer;
    var (ok, b') := PlaceStone(gm.board, row, col, p);
    if ok {
      PlacedFiveIsLocal(gm.board, row, col, p);
      if !CheckWinner(b', row, col, p) {
        QuietPlacementKeepsNoFive(gm.board, row, col, p);
      }
    }
  }

  /** While playing, the computer's chosen cell is always a legal placement. */
  lemma AiMoveIsLegal(gm: Game, roll: real, pick: nat)
    requires Inv(gm) && gm.phase == Playing
    ensures var m := AiChoice(gm, roll, pick);
      PlaceStone(gm.board, m.0, m.1, gm.currentPlayer).0
  {
    var g := gm.board.cells;
    assert !IsFull(gm.board);
    var i, j :| InBounds(gm.board.size, i, j) && g[i][j] == Empty;
    assert IsEmptyCell(g, (i, j));
  }

  /**
    When the run loop hands the turn to the computer, exactly one cell
    changes: an empty cell now holds player 2's stone, and then either the
    game is over or it is player 1's turn.
   */
  lemma AiTurnPlaysOneStone(gm: Game, roll: real, pick: nat)
    requires Inv(gm) && AiDue(gm)
    ensures var gm' := Step(gm, AiTick(roll, pick));
      var m := AiChoice(gm, roll, pick);
      && IsEmptyCell(gm.board.cells, m)
      && gm'.board.cells[m.0][m.1] == 2
      && (forall i, j :: InBounds(BoardSize, i, j) && (i, j) != m ==>
            gm'.board.cells[i][j] == gm.board.cells[i][j])
      && (gm'.phase == GameOver || gm'.currentPlayer == 1)
  {
    AiMoveIsLegal(gm, roll, pick);
  }

  lemma StepKeepsInv(gm: Game, e: Event)
    requires Inv(gm)
    ensures Inv(Step(gm, e))
  {
    match e
    case AiTick(roll, pick) =>
      if AiDue(gm) {
        var m := AiChoice(gm, roll, pick);
        PlayAtKeepsInv(gm, m.0, m.1);
      }
    case LeftClick(cell) =>
      if !gm.showMenu && gm.phase == Playing && cell.Some? {
        PlayAtKeepsInv(gm, cell.value.0, cell.value.1);
      }
    case KeyR =>
      if !gm.showMenu {
        EmptyHasNoFive(ResetGame(gm).board);
      }
    case KeyReturn =>
      if gm.showMenu {
        EmptyHasNoFive(StartGame(gm).board);
      }
    case _ =>
  }

  /** The state after a sequence of events. */
  function Run(gm: Game, events: seq<Event>): Game
    requires Valid(gm.board)
    decreases |events|
  {
    if events == [] then gm
    else
      Run(Step(gm, events[0]), events[1..])
  }

  /**
    Every state reached from the start keeps the invariant: in particular a
    recorded winner has five in a row and a recorded draw has a full board
    with no five anywhere.
   */
  lemma {:induction false} ReachableStatesKeepInv(gm: Game, events: seq<Event>)
    requires Inv(gm)
    ensures Inv(Run(gm, events))
    decreases |events|
  {
    if events != [] {
      StepKeepsInv(gm, events[0]);
      ReachableStatesKeepInv(Step(gm, events[0]), events[1..]);
    }
  }

  /** The outcome a reachable finished game reports is the true outcome. */
  lemma OutcomeIsJustified(events: seq<Event>)
    ensures var gm := Run(Init(), events);
      Valid(gm.board) && (gm.phase == GameOver ==>
        || (gm.winner == Some(DrawWinner) && IsFull(gm.board) && NoFive(gm.board))
        || (gm.winner == Some(1) && HasFive(gm.board.cells, 1))
        || (gm.winner == Some(2) && HasFive(gm.board.cells, 2)))
  {
    ReachableStatesKeepInv(Init(), events);
  }
}

=== FILE: runs.dfy ===
/**
  What the directional walks compute, and why the point-local check of
  check_winner finds exactly the fives that run through the stone just
  placed. Offsets along an axis are counted from the examined cell:
  offset 0 is the cell itself, positive offsets lie in direction (dr, dc).
 */
module Runs {
  import opened Board

  /** Every offset in lo..hi holds a `p` stone. */
  predicate Line(g: Grid, r: int, c: int, dr: int, dc: int, lo: int, hi: int, p: int)
    requires Square(g)
  {
    forall i :: lo <= i <= hi ==> StoneAt(g, r, c, dr, dc, i, p)
  }

  /** Five `p` stones at offsets s .. s+4. */
  predicate Line5(g: Grid, r: int, c: int, dr: int, dc: int, s: int, p: int)
    requires Square(g)
  {
    Line(g, r, c, dr, dc, s, s + WinLength - 1, p)
  }

  /** Some five consecutive `p` stones along (dr, dc) include offset 0. */
  predicate FiveThrough(g: Grid, r: int, c: int, dr: int, dc: int, p: int)
    requires Square(g)
  {
    exists s :: -(WinLength - 1) <= s <= 0 && Line5(g, r, c, dr, dc, s, p)
  }

  /** Along one of the four axes, five consecutive `p` stones include (r, c). */
  ghost predicate FiveInRow(g: Grid, r: int, c: int, p: int)
    requires Square(g)
  {
    exists k :: IsAxis(k) && FiveThrough(g, r, c, Axes[k].0, Axes[k].1, p)
  }

  /** Five `p` stones start at (r, c) along axis k. */
  predicate FiveFrom(g: Grid, r: int, c: int, k: int, p: int)
    requires Square(g) && IsAxis(k)
  {
    Line5(g, r, c, Axes[k].0, Axes[k].1, 0, p)
  }

  /** Somewhere on the grid `p` has five in a row. */
  ghost predicate HasFive(g: Grid, p: int)
    requires Square(g)
  {
    exists r, c, k :: IsAxis(k) && FiveFrom(g, r, c, k, p)
  }

  // ---------------------------------------------------------------------
  // RunLen is the length of the maximal run

  /** Every cell the walk counted holds `p`. */
  lemma {:induction false} RunLenCovers(g: Grid, r: int, c: int, dr: int, dc: int, p: int, i: int)
    requires Square(g) && IsStep(dr, dc)
    requires 1 <= i <= RunLen(g, r, c, dr, dc, p)
    ensures StoneAt(g, r, c, dr, dc, i, p)
    decreases Budget(|g|, r, c, dr, dc)
  {
    if i > 1 {
      RunLenCovers(g, r + dr, c + dc, dr, dc, p, i - 1);
      assert (r + dr) + (i - 1) * dr == r + i * dr;
      assert (c + dc) + (i - 1) * dc == c + i * dc;
    }
  }

  /** The cell just past the counted run does not hold `p`. */
  lemma {:induction false} RunLenStops(g: Grid, r: int, c: int, dr: int, dc: int, p: int)
    requires Square(g) && IsStep(dr, dc)
    ensures !StoneAt(g, r, c, dr, dc, RunLen(g, r, c, dr, dc, p) + 1, p)
    decreases Budget(|g|, r, c, dr, dc)
  {
    if Stone(g, r + dr, c + dc, p) {
      RunLenStops(g, r + dr, c + dc, dr, dc, p);
      var k := RunLen(g, r + dr, c + dc, dr, dc, p);
      assert (r + dr) + (k + 1) * dr == r + (k + 2) * dr;
      assert (c + dc) + (k + 1) * dc == c + (k + 2) * dc;
    }
  }

  /** A run of k stones after (r, c) makes RunLen at least k. */
  lemma RunLenAtLeast(g: Grid, r: int, c: int, dr: int, dc: int, p: int, k: int)
    requires Square(g) && IsStep(dr, dc)
    requires Line(g, r, c, dr, dc, 1, k, p)
    ensures k <= RunLen(g, r, c, dr, dc, p)
  {
    var n := RunLen(g, r, c, dr, dc, p);
    if n < k {
      RunLenStops(g, r, c, dr, dc, p);
    }
  }

  /** RunLen is the unique k with stones at offsets 1..k and none at k+1. */
  lemma RunLenIs(g: Grid, r: int, c: int, dr: int, dc: int, p: int, k: nat)
    requires Square(g) && IsStep(dr, dc)
    requires Line(g, r, c, dr, dc, 1, k, p)
    requires !StoneAt(g, r, c, dr, dc, k + 1, p)
    ensures RunLen(g, r, c, dr, dc, p) == k
  {
    RunLenAtLeast(g, r, c, dr, dc, p, k);
    if RunLen(g, r, c, dr, dc, p) > k {
      RunLenCovers(g, r, c, dr, dc, p, k + 1);
    }
  }

  /** Walking backwards i steps is walking forwards -i steps. */
  lemma Reverse(g: Grid, r: int, c: int, dr: int, dc: int, p: int, i: int)
    requires Square(g)
    ensures StoneAt(g, r, c, -dr, -dc, i, p) <==> StoneAt(g, r, c, dr, dc, -i, p)
  {
    assert r + i * (-dr) == r + (-i) * dr;
    assert c + i * (-dc) == c + (-i) * dc;
  }

  /**
    If offsets lo..hi (other than 0, which the walks never inspect) hold
    `p` and offsets lo-1 and hi+1 do not, the forward walk counts hi stones
    and the backward walk -lo.
   */
  lemma RunBounds(g: Grid, r: int, c: int, dr: int, dc: int, p: int, lo: int, hi: int)
    requires Square(g) && IsStep(dr, dc) && lo <= 0 <= hi
    requires Line(g, r, c, dr, dc, 1, hi, p) && Line(g, r, c, dr, dc, lo, -1, p)
    requires !StoneAt(g, r, c, dr, dc, lo - 1, p) && !StoneAt(g, r, c, dr, dc, hi + 1, p)
    ensures RunLen(g, r, c, dr, dc, p) == hi
    ensures RunLen(g, r, c, -dr, -dc, p) == -lo
  {
    var br, bc := -dr, -dc;
    RunLenIs(g, r, c, dr, dc, p, hi);
    forall i | 1 <= i <= -lo
      ensures StoneAt(g, r, c, br, bc, i, p)
    {
      Reverse(g, r, c, dr, dc, p, i);
    }
    Reverse(g, r, c, dr, dc, p, -lo + 1);
    RunLenIs(g, r, c, br, bc, p, -lo);
  }

  /**
    The `count` of an axis is the length of the maximal run through the
    cell: with the run bounded as in RunBounds, the count is hi - lo + 1.
   */
  lemma AxisCountIsRunLength(g: Grid, r: int, c: int, dr: int, dc: int, p: int, lo: int, hi: int)
    requires Square(g) && IsStep(dr, dc) && lo <= 0 <= hi
    requires Line(g, r, c, dr, dc, 1, hi, p) && Line(g, r, c, dr, dc, lo, -1, p)
    requires !StoneAt(g, r, c, dr, dc, lo - 1, p) && !StoneAt(g, r, c, dr, dc, hi + 1, p)
    ensures AxisCount(g, r, c, dr, dc, p) == hi - lo + 1
  {
    RunBounds(g, r, c, dr, dc, p, lo, hi);
  }

  // ---------------------------------------------------------------------
  // check_winner finds exactly the fives through the placed stone

  /** A count of five or more on an axis yields five stones through the cell. */
  lemma CountGivesFive(g: Grid, r: int, c: int, dr: int, dc: int, p: int)
    requires Square(g) && IsStep(dr, dc) && Stone(g, r, c, p)
    requires AxisCount(g, r, c, dr, dc, p) >= WinLength
    ensures FiveThrough(g, r, c, dr, dc, p)
  {
    var br, bc := -dr, -dc;
    var b := RunLen(g, r, c, br, bc, p);
    var s := if b < WinLength - 1 then -b else -(WinLength - 1);
    forall i | s <= i <= s + WinLength - 1
      ensures StoneAt(g, r, c, dr, dc, i, p)
    {
      if i < 0 {
        RunLenCovers(g, r, c, br, bc, p, -i);
        Reverse(g, r, c, dr, dc, p, -i);
      } else if i == 0 {
        assert r + i * dr == r && c + i * dc == c;
      } else {
        RunLenCovers(g, r, c, dr, dc, p, i);
      }
    }
    assert Line5(g, r, c, dr, dc, s, p);
  }

  /** Five stones through the cell on an axis give a count of five or more. */
  lemma FiveGivesCount(g: Grid, r: int, c: int, dr: int, dc: int, p: int)
    requires Square(g) && IsStep(dr, dc)
    requires FiveThrough(g, r, c, dr, dc, p)
    ensures AxisCount(g, r, c, dr, dc, p) >= WinLength
  {
    var br, bc := -dr, -dc;
    var s :| -(WinLength - 1) <= s <= 0 && Line5(g, r, c, dr, dc, s, p);
    RunLenAtLeast(g, r, c, dr, dc, p, s + WinLength - 1);
    forall i | 1 <= i <= -s
      ensures StoneAt(g, r, c, br, bc, i, p)
    {
      Reverse(g, r, c, dr, dc, p, i);
    }
    RunLenAtLeast(g, r, c, br, bc, p, -s);
  }

  /** On one axis, count >= 5 iff five consecutive stones include the cell. */
  lemma AxisWinsIffFive(g: Grid, r: int, c: int, dr: int, dc: int, p: int)
    requires Square(g) && IsStep(dr, dc) && Stone(g, r, c, p)
    ensures AxisCount(g, r, c, dr, dc, p) >= WinLength <==> FiveThrough(g, r, c, dr, dc, p)
  {
    if AxisCount(g, r, c, dr, dc, p) >= WinLength {
      CountGivesFive(g, r, c, dr, dc, p);
    }
    if FiveThrough(g, r, c, dr, dc, p) {
      FiveGivesCount(g, r, c, dr, dc, p);
    }
  }

  lemma AxesAreSteps(k: int)
    requires IsAxis(k)
    ensures IsStep(Axes[k].0, Axes[k].1)
  {
  }

  /** WinsFrom(k) holds iff some axis k' >= k reaches WinLength. */
  lemma {:induction false} WinsFromAnyAxis(g: Grid, r: int, c: int, p: int, k: nat)
    requires Square(g) && k <= |Axes|
    ensures WinsFrom(g, r, c, p, k) <==>
      exists j :: k <= j < |Axes| && AxisCount(g, r, c, Axes[j].0, Axes[j].1, p) >= WinLength
    decreases |Axes| - k
  {
    if k < |Axes| {
      WinsFromAnyAxis(g, r, c, p, k + 1);
    }
  }

  /**
    check_winner through the stone just placed is true iff that stone lies
    in five consecutive stones of its player along one of the four axes.
   */
  lemma CheckWinnerMeansFive(b: Board, row: int, col: int, player: int)
    requires Valid(b) && Stone(b.cells, row, col, player)
    ensures CheckWinner(b, row, col, player) <==> FiveInRow(b.cells, row, col, player)
  {
    WinsFromAnyAxis(b.cells, row, col, player, 0);
    forall k | IsAxis(k)
      ensures AxisCount(b.cells, row, col, Axes[k].0, Axes[k].1, player) >= WinLength
          <==> FiveThrough(b.cells, row, col, Axes[k].0, Axes[k].1, player)
    {
      AxesAreSteps(k);
      AxisWinsIffFive(b.cells, row, col, Axes[k].0, Axes[k].1, player);
    }
  }

  /** An overline (six or more in a row through the stone) also wins. */
  lemma OverlineWins(b: Board, row: int, col: int, player: int, k: int, lo: int)
    requires Valid(b) && IsAxis(k) && lo <= 0 <= lo + 5
    requires Line(b.cells, row, col, Axes[k].0, Axes[k].1, lo, lo + 5, player)
    ensures CheckWinner(b, row, col, player)
  {
    var s := if lo < -(WinLength - 1) then -(WinLength - 1) else lo;
    assert Line5(b.cells, row, col, Axes[k].0, Axes[k].1, s, player);
    assert StoneAt(b.cells, row, col, Axes[k].0, Axes[k].1, 0, player);
    CheckWinnerMeansFive(b, row, col, player);
  }

  /**
    A maximal run of exactly four through the cell (offsets lo..lo+3,
    with neither neighbour of the run holding `player`) gives that axis a
    count of four, short of WinLength.
   */
  lemma ExactFourFallsShort(g: Grid, row: int, col: int, player: int, k: int, lo: int)
    requires Square(g) && IsAxis(k) && -3 <= lo <= 0
    requires Line(g, row, col, Axes[k].0, Axes[k].1, lo, lo + 3, player)
    requires !StoneAt(g, row, col, Axes[k].0, Axes[k].1, lo - 1, player)
    requires !StoneAt(g, row, col, Axes[k].0, Axes[k].1, lo + 4, player)
    ensures AxisCount(g, row, col, Axes[k].0, Axes[k].1, player) == 4 < WinLength
  {
    AxesAreSteps(k);
    AxisCountIsRunLength(g, row, col, Axes[k].0, Axes[k].1, player, lo, lo + 3);
  }

  // ---------------------------------------------------------------------
  // A point-local check suffices

  /** Moving the origin j steps along the axis shifts every offset by -j. */
  lemma Shift(g: Grid, r: int, c: int, dr: int, dc: int, p: int, j: int, i: int)
    requires Square(g)
    ensures StoneAt(g, r, c, dr, dc, i, p) <==> StoneAt(g, r + j * dr, c + j * dc, dr, dc, i - j, p)
  {
    assert (r + j * dr) + (i - j) * dr == r + i * dr;
    assert (c + j * dc) + (i - j) * dc == c + i * dc;
  }

  /** A stone other than `q` at (row, col) cannot take part in a five of `q`. */
  lemma FiveAvoidsOtherCell(g: Grid, g': Grid, row: int, col: int, q: int)
    requires Square(g) && Square(g') && |g'| == |g| && InBounds(|g|, row, col)
    requires g'[row][col] != q
    requires forall i, j :: InBounds(|g|, i, j) && (i != row || j != col) ==> g'[i][j] == g[i][j]
    requires HasFive(g', q)
    ensures HasFive(g, q)
  {
    var r, c, k :| IsAxis(k) && FiveFrom(g', r, c, k, q);
    forall i | 0 <= i <= WinLength - 1
      ensures StoneAt(g, r, c, Axes[k].0, Axes[k].1, i, q)
    {
      assert StoneAt(g', r, c, Axes[k].0, Axes[k].1, i, q);
    }
    assert FiveFrom(g, r, c, k, q);
  }

  /**
    If `player` had no five before placing at (row, col), then after the
    placement it has one iff check_winner through (row, col) says so: a
    new five must run through the new stone.
   */
  lemma PlacedFiveIsLocal(b: Board, row: int, col: int, player: int)
    requires Valid(b) && InBounds(b.size, row, col) && b.cells[row][col] == Empty
    requires !HasFive(b.cells, player)
    ensures var b' := PlaceStone(b, row, col, player).1;
      HasFive(b'.cells, player) <==> CheckWinner(b', row, col, player)
  {
    var b' := PlaceStone(b, row, col, player).1;
    var g, g' := b.cells, b'.cells;
    assert Stone(g', row, col, player);
    CheckWinnerMeansFive(b', row, col, player);
    if HasFive(g', player) {
      var r, c, k :| IsAxis(k) && FiveFrom(g', r, c, k, player);
      var dr, dc := Axes[k].0, Axes[k].1;
      if j :| 0 <= j <= WinLength - 1 && r + j * dr == row && c + j * dc == col {
        forall i | -j <= i <= -j + WinLength - 1
          ensures StoneAt(g', row, col, dr, dc, i, player)
        {
          Shift(g', r, c, dr, dc, player, j, i + j);
        }
        assert Line5(g', row, col, dr, dc, -j, player);
        assert FiveThrough(g', row, col, dr, dc, player);
      } else {
        forall i | 0 <= i <= WinLength - 1
          ensures StoneAt(g, r, c, dr, dc, i, player)
        {
          assert StoneAt(g', r, c, dr, dc, i, player);
        }
        assert FiveFrom(g, r, c, k, player);
      }
    }
    if CheckWinner(b', row, col, player) {
      var k :| IsAxis(k) && FiveThrough(g', row, col, Axes[k].0, Axes[k].1, player);
      var dr, dc := Axes[k].0, Axes[k].1;
      var s :| -(WinLength - 1) <= s <= 0 && Line5(g', row, col, dr, dc, s, player);
      var r0, c0 := row + s * dr, col + s * dc;
      forall i | 0 <= i <= WinLength - 1
        ensures StoneAt(g', r0, c0, dr, dc, i, player)
      {
        Shift(g', row, col, dr, dc, player, s, i + s);
      }
      assert FiveFrom(g', r0, c0, k, player);
    }
  }
}
